=== FILE: README.md ===
# Space Defender (NEON VOID: HYPERION) — a Dafny model of the game core

The game is a single-screen Phaser shooter. The ship fires pooled bullets and
can dash. Enemies (grunts and chasers) come down in waves whose size and speed
grow with the score. This project models the part of `game.js` that is plain
logic:

- the scene globals (score, wave, hit points, game-over flag, fire and dash
  cooldown timestamps, the 50-slot bullet group and the enemy group) as an
  immutable `GameState`;
- every transition as a pure function on that state: the per-frame update
  (game-over gate and restart, steering, dash, firing, off-screen cleanup),
  the spawn timer callback, the two overlap callbacks and the game-over
  transition;
- the WAV serialiser behind every sound effect, down to the byte sequence.

The modules follow the structure of the program:

- `State`: entities, the start state, restart, and the invariant.
- `Pool`: the bullet group's get, kill and cleanup.
- `Enemies`: the spawner and the enemy cleanup.
- `Collisions`: `hitEnemy`, `hitPlayer` and `gameOver`.
- `Frame`: `update`.
- `Session`: events, runs of events, and the session-level lemmas.
- `Wav`: the header and sample layout, with a parser as its inverse.
- `Wrappers`: `Option`.

Things the engine or the browser decides enter as parameters:

- The physics engine's overlaps and motion updates are events that name a
  bullet slot or an enemy by index. An index outside its collection stands
  for a missing object and changes nothing.
- The timer's ticks are `SpawnTick` events.
- The random draws come in as a function from draw number to a `Roll`. This
  is a subset type that holds `Between(50, 750)` for x, `Math.random()` in
  [0, 1) for the kind, and `Between(-50, 50)` for a grunt's speed.
- The frame clock `time` is a parameter of each frame.

Positions and velocities are integers, and the frame clock `time` is whole
milliseconds. In the engine `time` is a fractional millisecond timestamp, so
the integer clock narrows the inputs: frames at 0.5 ms and 150.7 ms both fire
in the source, and no pair of whole-millisecond times reproduces that.
`Session.FireRateLimited` and `Session.DashRateLimited` use only the order of
times and the +150 and +1000 offsets. Audio
samples are reals. A Float32 sample times 32767 is exact in double
precision, so the clamp, scale and truncate step is exact over the reals.

Points where the code's behaviour is easy to misread:

- Restart resets the score, the wave and the game-over flag, and rebuilds the
  scene. It does **not** reset `lastFired` or `dashCooldown`: they are
  module-level variables (game.js:27) that neither `restartGame` nor `create`
  touches. `State.Restart` keeps them.
- The enemy cleanup (game.js:280-284) runs `forEach` over the group's live
  children array, and `destroy()` splices that array. The enemy that slides
  into the destroyed one's position is passed over for that frame, escaped or
  not, and the loop goes on from the enemy after it
  (`Enemies.SkipAfterDestroy`). A group of just two escapees loses only the
  first (`Enemies.AdjacentEscapees`); of three escapees in a row, the middle
  one survives (`Enemies.ThreeEscapees`). A survivor goes on a later frame.
  `Enemies.CullFrom` models the loop as written, and `Enemies.CullIsSweep`
  proves it equal to a simple pass over the original order.
- `hitPlayer` checks the `invulnerable` flag (game.js:329). The flag is
  never set, so `State.Inv` records that it stays false.
- `hitPlayer` does not look at `isGameOver`, and `scene.physics.pause()`
  (game.js:340) takes effect at the next physics step. A second overlap in
  the step that ends the game therefore still runs `hitPlayer`, taking the
  hit points from 0 to -20 and calling `gameOver` again
  (`Collisions.SameStepDoubleHit`). The session model delivers no engine
  event once the game is over: `Session.Step` drops them. The invariant's
  `hp >= 0` and "game over iff hp == 0" are properties of that event model.

## Model

| member | source | states |
|---|---|---|
| `State.InitialInv` | game.js:27 | the page-load state has score 0, wave 1, no game over, both timestamps 0, a full-health ship and empty groups, and satisfies the invariant |
| `State.Restart` | game.js:349-351 | restart gives score 0, wave 1, play resumed, a fresh ship at full health and empty groups; the fire and dash timestamps survive |
| `State.RestartInv` | game.js:349-351 | restarting from any state reaches a state satisfying the invariant, and restarting again changes nothing |
| `Pool.FirstInactive` | game.js:257 | the search the group's `get` does: every slot before the result is in flight and the result is free (or the end) |
| `Pool.Acquire` | game.js:184 | the group hands out nothing exactly when it holds 50 slots all in flight; otherwise the first free slot, or a new slot only while below 50 |
| `Pool.Place` | game.js:257-260 | the shot goes in the chosen slot and every other slot is untouched |
| `Pool.Release` | game.js:306-307 | a killed bullet is inactive and stopped, at the same place |
| `Pool.PlaceAddsOne` | game.js:257-262 | filling the slot the group handed out puts exactly one more bullet in flight |
| `Pool.CullBullets` | game.js:267-276 | after the cleanup, a slot is in flight iff it was in flight and at y >= -50, and such slots are unchanged |
| `Pool.CullNeverAdds` | game.js:267-276 | the bullet cleanup never increases the number of bullets in flight |
| `Enemies.SpawnCount` | game.js:291 | the batch size n is floor(level/2)+1, characterised by 2(n-1) <= level < 2n, so at least one for every wave |
| `Enemies.Spawned` | game.js:293-298 | a spawned enemy is active at y = -50 with x in [50, 750]; it is a grunt iff the roll exceeds 0.3; a grunt moves at (vx in [-50, 50], 100 + 10·level) and a chaser starts still |
| `Enemies.Spawn` | game.js:289-299 | once the game is over a tick does nothing; otherwise it appends exactly SpawnCount(level) enemies, one per draw, and changes nothing else |
| `Enemies.CullFrom` | game.js:279-285 | the live-array cleanup loop only ever drops enemies it was given |
| `Enemies.CullFromIsSweep` | game.js:279-285 | from every loop position, the live-array loop equals the pass that destroys an escaped enemy unless its predecessor was just destroyed |
| `Enemies.CullIsSweep` | game.js:280-284 | the whole cleanup equals that reference pass over the original order |
| `Enemies.SweepKeepsOnScreen` | game.js:283 | the cleanup keeps every on-screen enemy, in order, and removes only enemies from the group |
| `Enemies.SweepProgress` | game.js:283 | a frame with any escaped enemy destroys at least one enemy |
| `Enemies.SweepOnScreenPrefix` | game.js:280-284 | the loop passes a run of on-screen enemies unchanged and reaches what follows in the same state as at the start |
| `Enemies.SkipAfterDestroy` | game.js:280-284 | after a run of on-screen enemies, the first escaped enemy is destroyed, the enemy directly after it survives the frame whatever its position, and the loop treats the rest as a fresh group |
| `Enemies.AdjacentEscapees` | game.js:280-284 | a group of exactly two escaped enemies loses only the first in the frame |
| `Enemies.ThreeEscapees` | game.js:280-284 | of three escaped enemies in a row, the first and third are destroyed and the middle one survives the frame |
| `Enemies.LoneEscapee` | game.js:283 | a lone enemy below y = 650 is destroyed |
| `Enemies.CullKeepsActive` | game.js:281-283 | the cleanup leaves only active enemies in the group |
| `Collisions.HitEnemy` | game.js:302-323 | a missing or inactive bullet or enemy means no change; otherwise the bullet slot is freed (others untouched), the enemy is removed from its position with the order of the rest kept, the score gains exactly 100, and the wave rises by one and the ship heals to min(hp+20, 100) exactly when the new score is a multiple of 1000 |
| `Collisions.WaveFollowsScore` | game.js:316-320 | a kill keeps the wave equal to 1 + score/1000 and the score a multiple of 100 |
| `Collisions.ScoreStep` | game.js:316-318 | adding 100 to a multiple of 100 raises score/1000 by one exactly when the sum is a multiple of 1000, and leaves it otherwise |
| `Collisions.FirstWaveUp` | game.js:316-320 | the kill from 900 to 1000 starts wave 2 and heals by 20, capped at 100 |
| `Collisions.GameOver` | game.js:337-339 | game over raises the flag, stops the ship and changes nothing else |
| `Collisions.HitPlayer` | game.js:328-335 | an invulnerable ship ignores the hit; otherwise the enemy is removed from its position with the order of the rest kept, hp drops by exactly 20, the game is over iff it was or hp <= 0, the ship stops (velocity 0, 0) when the hit ends the game and is otherwise untouched, and score, wave, bullets and both timestamps are unchanged |
| `Collisions.SameStepDoubleHit` | game.js:328-340 | two overlaps reported in the step that ends the game take the ship from 20 hp to 0 and then to -20, both with the game over, because the callback ignores the flag |
| `Collisions.HitPlayerNeverHeals` | game.js:331 | an enemy collision never raises the hit points |
| `Frame.Steer` | game.js:234-239 | each axis is thrust -800, +800 or 0; left beats right and up beats down when both are held; nothing but acceleration changes |
| `Frame.Dash` | game.js:248-253 | a fresh press after the cooldown doubles both velocity components and sets the cooldown to time+1000; anything else changes nothing |
| `Frame.Fire` | game.js:256-265 | a shot happens iff fire is held, time > lastFired and the pool has a slot; it puts a bullet at (px, py-20) with velocity (0, -500) in the handed-out slot, adds exactly one bullet in flight and sets lastFired = time+150; a full pool leaves lastFired unchanged |
| `Frame.Update` | game.js:218-286 | while game over a frame changes nothing unless fire is held, which restarts; otherwise a frame keeps score, wave, hp and the flag, runs the enemy cleanup, and keeps the pool within 50 slots |
| `Session.Physics` | game.js:202-203 | only a bullet-enemy overlap changes the score (by +100); only a ship-enemy overlap lowers hp or ends the game, and only at hp <= 0 |
| `Session.Step` | game.js:219-222 | on the game-over screen every event but a frame with fire held leaves the state unchanged, and that frame restarts |
| `Session.StepKeepsInv` | game.js:316-331 | every event keeps the invariant: score a multiple of 100, wave = 1 + score/1000, hp a multiple of 20 in [0, 100] and zero iff game over, at most 50 slots, all enemies active; engine events are dropped on the game-over screen |
| `Session.RunKeepsInv` | game.js:316-331 | every sequence of events keeps that invariant |
| `Session.Reachable` | game.js:27 | from the start of a session, every reachable state has score a non-negative multiple of 100, wave 1 + score/1000, hp a multiple of 20 in [0, 100] that is zero iff game over, and at most 50 bullets in flight; the lower bound and the iff hold because the event model delivers no engine event once the game is over |
| `Session.GameOverAbsorbs` | game.js:219-222 | from game over, any run without fire held leaves the state exactly as it is |
| `Session.OnlyRestartLeavesGameOver` | game.js:219-220 | on the game-over screen an event ends game over iff it is a frame with fire held, and that gives score 0 and wave 1 |
| `Session.FireRateLimited` | game.js:256-262 | after a frame that fired, a frame at most 150 ms later fires nothing: lastFired stays and no bullet is added |
| `Session.DashRateLimited` | game.js:248-251 | after a frame that dashed, a frame at most 1000 ms later neither changes the velocity nor the cooldown |
| `Session.RepeatedRams` | game.js:329-334 | k collisions from a live ship with at least 20k hp cost exactly 20k hp and k enemies, and end the game iff hp == 20k |
| `Session.FifthHitEndsGame` | game.js:329-334 | from 100 hp, four collisions leave 20 hp in play and the fifth ends the game at 0 |
| `Session.RestartScenario` | game.js:349-351 | fire on the game-over screen yields score 0, wave 1, 100 hp, empty groups, play resumed, and the invariant |
| `Wav.LE16` | game.js:46 | the two bytes written read back as the value modulo 2^16 |
| `Wav.LE32` | game.js:47 | the four bytes written read back as the value modulo 2^32 |
| `Wav.Ascii` | game.js:45 | one byte per character |
| `Wav.ChunkIds` | game.js:50-54 | the tags are the bytes of "RIFF", "WAVE", "fmt " and "data" |
| `Wav.Header` | game.js:36-54 | the header is 44 bytes |
| `Wav.RiffLayout` | game.js:50 | the RIFF part is "RIFF", then 36 + 2n as a 32-bit value, then "WAVE" |
| `Wav.FmtLayout` | game.js:52 | the `fmt ` chunk holds size 16, format 1, one channel, the rate, twice the rate, block align 2 and 16 bits |
| `Wav.DataLayout` | game.js:54 | the data chunk header is "data" then 2n as a 32-bit value |
| `Wav.HeaderLayout` | game.js:49-54 | the header has the canonical layout: tags at 0/8/12/36, 36+2n at 4, 16/1/1 at 16/20/22, rate at 24, 2·rate at 28, 2/16 at 32/34, 2n at 40 (32-bit fields modulo 2^32) |
| `Wav.CanonicalWhenSmall` | game.js:49-54 | a header in that layout, with no field wrapping, passes every check of the parser and reads back the rate |
| `Wav.EncodedHeader` | game.js:49-54 | the first 44 bytes of the serialised file form a canonical header for the file's length |
| `Wav.Clamp` | game.js:57 | the clamped value lies in [-1, 1] and equals the input when the input already does |
| `Wav.Trunc` | game.js:59 | `| 0` rounds toward zero: the result is within 1 of the input and no larger in magnitude |
| `Wav.Quantise` | game.js:57-59 | the encoded sample lies in [-32767, 32767], is full scale at or beyond ±1, and is positive iff the scaled input reaches 1 |
| `Wav.QuantiseOdd` | game.js:57-59 | a negated sample encodes as the negated value |
| `Wav.Pcm` | game.js:58-61 | two bytes per sample |
| `Wav.Encode` | game.js:41 | the file is 44 + 2n bytes |
| `Wav.PcmSnoc` | game.js:58-61 | appending a sample appends exactly its two bytes |
| `Wav.PcmAt` | game.js:58-61 | sample i occupies bytes 2i and 2i+1 of the sample data |
| `Wav.SampleRoundTrip` | game.js:60 | a quantised value written as a 16-bit store reads back as itself when read as signed |
| `Wav.SampleAt` | game.js:56-61 | the 16-bit value at offset 44 + 2i of the file reads back, signed, as the quantised sample i |
| `Wav.Put` | game.js:45-47 | a store at the write cursor keeps the buffer's length, appends the bytes to what is written so far, moves the cursor past them and leaves the rest of the buffer untouched |
| `Wav.WriteRiff` | game.js:50 | the three RIFF writes fill exactly 12 bytes at the cursor with the RIFF tag, 36 + 2n and the WAVE tag; the bytes before and after those written are untouched |
| `Wav.WriteFmt` | game.js:52 | the eight `fmt ` writes fill exactly 24 bytes at the cursor with the fmt chunk fields in order; the bytes before and after those written are untouched |
| `Wav.WriteData` | game.js:54 | the two `data` writes fill exactly 8 bytes at the cursor with the tag and 2n; the bytes before and after those written are untouched |
| `Wav.WriteHeader` | game.js:49-54 | from cursor 0 the header writes leave the cursor at 44 with the first 44 bytes equal to the header |
| `Wav.Serialise` | game.js:41-61 | a cursor writer over a preallocated buffer of 44 + 2n bytes whose cursor ends exactly at the buffer's end; the result is exactly the header followed by one 16-bit store per quantised sample |
| `Wav.Parse` | game.js:49-54 | an accepted file is 44 + 2n bytes and every sample is a signed 16-bit value |
| `Wav.ParseEncode` | game.js:35-61 | round trip: with no field wrapping, parsing the serialised file returns the sample rate and exactly the quantised samples |

## Left out

- Arcade physics integration: acceleration, drag, max velocity and the
  ship's world-bound clamping. These are engine-internal floating point. Their results arrive as `PlayerMoved`, `BulletMoved` and
  `EnemyMoved` events carrying arbitrary integer values.
- `setBounce(1)` on every spawned enemy (game.js:296). It has no effect:
  the same call turns world-bound collision off, and the enemy group takes
  part only in overlaps, which never separate bodies.
- The chasers' `moveToObject` steering (game.js:282) is floating-point
  pursuit. In the model, the cleanup leaves a chaser's velocity as it was.
- AABB overlap detection. The engine's reports are the `BulletHitsEnemy` and
  `EnemyHitsPlayer` events.
- Session.Reachable: overlaps reported later in the physics step that ends
  the game are not delivered by the session model, which drops every engine
  event on the game-over screen. In the source such an overlap still runs
  `hitPlayer` and takes hp below zero (`Collisions.SameStepDoubleHit` shows
  it), so the invariant's `hp >= 0` and "game over iff hp == 0" are promises
  of the event model, not of the engine.
- The timer scheduler, `Phaser.Math.Between` and `Math.random`. They become
  `SpawnTick` events and their draws. The 70/30 weighting is a probability
  and is not modelled.
- Procedural synthesis (`makeTone`, `makeSweep`, `makeNoiseBurst`,
  `makeBgmLoop`). It is floating-point sine and noise generation.
- The default `sampleRate = 44100` of `wavURI` (game.js:35). `Wav.Encode`
  and `Wav.Serialise` take the rate as an argument; every caller passes one
  (game.js:79, 91, 102, 115), so no behaviour is lost.
- The `btoa` / data-URI step of `wavURI` (game.js:62-63). It is a browser
  call; the model stops at the bytes.
- NaN and infinite samples: reals have neither. Allocation failure of
  a huge buffer is not modelled either.
- Textures, starfield, particle emitters, camera shake and flash, tweens, HUD
  text, sounds and music, and the bullets' visible flag and texture. These are
  presentation only.
- The separate arrow and WASD bindings. They are merged into one flag per
  control. `JustDown` edge detection is the frame input `dashPressed`.
- The frame `delta`. Only the engine reads it.
- The internals of `scene.scene.restart()`. Restart is the reset state with
  empty groups.

=== FILE: collisions.dfy ===
/**
 * The two overlap callbacks the physics engine invokes: a bullet reaching an
 * enemy (scoring and the wave-up heal) and an enemy reaching the ship
 * (damage and the game-over transition). Events name the bullet slot and the
 * enemy by index; an index outside the collection stands for a missing
 * object.
 */
module Collisions {

  import opened State
  import Pool

  /** Both objects exist and are active, so the bullet-enemy callback does its work. */
  predicate Live(s: GameState, b: int, e: int)
  {
    0 <= b < |s.bullets| && 0 <= e < |s.enemies| && s.bullets[b].active && s.enemies[e].active
  }

  function Min(a: int, b: int): int
  {
    if a <= b then a else b
  }

  /**
   * A bullet reaches an enemy. The bullet returns to the pool, the enemy is
   * destroyed and the score gains 100; a score landing on a multiple of 1000
   * starts the next wave and heals the ship by 20, capped at 100.
   */
  function HitEnemy(s: GameState, b: int, e: int): (r: GameState)
    ensures !Live(s, b, e) ==> r == s
    ensures Live(s, b, e) ==>
      && r.score == s.score + KillPoints
      && |r.bullets| == |s.bullets|
      && !r.bullets[b].active
      && (forall j :: 0 <= j < |s.bullets| && j != b ==> r.bullets[j] == s.bullets[j])
      && r.enemies == Remove(s.enemies, e)
      && multiset(r.enemies) + multiset{s.enemies[e]} == multiset(s.enemies)
      && (r.level == s.level + 1 <==> r.score % WavePoints == 0)
      && (r.level == s.level <==> r.score % WavePoints != 0)
      && r.player.hp == (if r.score % WavePoints == 0 then Min(s.player.hp + Heal, MaxHp) else s.player.hp)
      && r.player == s.player.(hp := r.player.hp)
      && r.isGameOver == s.isGameOver
      && r.lastFired == s.lastFired && r.dashCooldown == s.dashCooldown
  {
    if !Live(s, b, e) then s
    else
      var score := s.score + KillPoints;
      var s1 := s.(bullets := s.bullets[b := Pool.Release(s.bullets[b])],
                   enemies := Remove(s.enemies, e),
                   score := score);
      if score % WavePoints == 0 then
        s1.(level := s.level + 1, player := s.player.(hp := Min(s.player.hp + Heal, MaxHp)))
      else s1
  }

  /** The game-over transition: the flag is raised and the ship stops. */
  function GameOver(s: GameState): (r: GameState)
    ensures r.isGameOver
    ensures r.player.vx == 0 && r.player.vy == 0
    ensures r.player == s.player.(vx := 0, vy := 0)
    ensures r == s.(isGameOver := true, player := r.player)
  {
    s.(isGameOver := true, player := s.player.(vx := 0, vy := 0))
  }

  /**
   * An enemy reaches the ship. An invulnerable ship ignores it; otherwise
   * the enemy is destroyed, the ship loses 20 hit points, and the game ends
   * when they reach zero or below. The callback itself does not look at the
   * game-over flag.
   */
  function HitPlayer(s: GameState, e: int): (r: GameState)
    ensures s.player.invulnerable || !(0 <= e < |s.enemies|) ==> r == s
    ensures !s.player.invulnerable && 0 <= e < |s.enemies| ==>
      && r.player.hp == s.player.hp - Damage
      && (r.isGameOver <==> s.isGameOver || r.player.hp <= 0)
      && r.enemies == Remove(s.enemies, e)
      && multiset(r.enemies) + multiset{s.enemies[e]} == multiset(s.enemies)
      && (r.player.hp <= 0 ==> r.player == s.player.(hp := r.player.hp, vx := 0, vy := 0))
      && (r.player.hp > 0 ==> r.player == s.player.(hp := r.player.hp))
      && r.score == s.score && r.level == s.level && r.bullets == s.bullets
      && r.lastFired == s.lastFired && r.dashCooldown == s.dashCooldown
  {
    if s.player.invulnerable || !(0 <= e < |s.enemies|) then s
    else
      var s1 := s.(enemies := Remove(s.enemies, e), player := s.player.(hp := s.player.hp - Damage));
      if s1.player.hp <= 0 then GameOver(s1) else s1
  }

  /**
   * Two overlaps reported in the physics step that ends the game: the first
   * takes the ship from 20 to 0 and ends the game, and because the callback
   * does not look at the game-over flag and the pause only takes effect at
   * the next step, the second takes it to -20.
   */
  lemma SameStepDoubleHit(s: GameState)
    requires s.player.hp == Damage && !s.player.invulnerable && !s.isGameOver
    requires |s.enemies| >= 2
    ensures HitPlayer(s, 0).isGameOver && HitPlayer(s, 0).player.hp == 0
    ensures HitPlayer(HitPlayer(s, 0), 0).player.hp == -Damage
    ensures HitPlayer(HitPlayer(s, 0), 0).isGameOver
    ensures HitPlayer(HitPlayer(s, 0), 0).enemies == s.enemies[2..]
  {
  }

  /** Hit points never rise on a collision except by the wave-up heal. */
  lemma HitPlayerNeverHeals(s: GameState, e: int)
    ensures HitPlayer(s, e).player.hp <= s.player.hp
  {
  }

  /**
   * The wave-up follows the score: in a state where the wave is
   * `1 + score / 1000`, a kill keeps that relation, and the wave advances
   * exactly when the new score is a multiple of 1000.
   */
  lemma WaveFollowsScore(s: GameState, b: int, e: int)
    requires s.score >= 0 && s.score % KillPoints == 0 && s.level == 1 + s.score / WavePoints
    requires Live(s, b, e)
    ensures HitEnemy(s, b, e).level == 1 + HitEnemy(s, b, e).score / WavePoints
    ensures HitEnemy(s, b, e).score % KillPoints == 0
  {
    ScoreStep(s.score);
  }

  /** Adding 100 to a multiple of 100 crosses a multiple of 1000 exactly when it lands on one. */
  lemma ScoreStep(score: int)
    requires score >= 0 && score % KillPoints == 0
    ensures (score + KillPoints) % KillPoints == 0
    ensures (score + KillPoints) % WavePoints == 0 ==> (score + KillPoints) / WavePoints == score / WavePoints + 1
    ensures (score + KillPoints) % WavePoints != 0 ==> (score + KillPoints) / WavePoints == score / WavePoints
  {
    assert KillPoints == 100 && WavePoints == 1000;
    var k, q := score / 100, score / 1000;
    assert score == 100 * k;
    assert score + 100 == 100 * (k + 1);
    var m := k - 10 * q;
    assert 0 <= 100 * m < 1000;
    if m == 9 {
      assert score + 100 == 1000 * (q + 1);
    } else {
      assert score + 100 == 1000 * q + 100 * (m + 1) && 100 * (m + 1) < 1000;
    }
  }

  /** The kill that takes the score from 900 to 1000 starts wave 2 and heals the ship. */
  lemma FirstWaveUp(s: GameState, b: int, e: int)
    requires s.score == 900 && s.level == 1 && s.player.hp <= MaxHp
    requires Live(s, b, e)
    ensures HitEnemy(s, b, e).score == 1000
    ensures HitEnemy(s, b, e).level == 2
    ensures HitEnemy(s, b, e).player.hp == Min(s.player.hp + 20, 100)
  {
  }
}

=== FILE: enemies.dfy ===
/**
 * The enemy group: the periodic spawner that adds a wave-sized batch of
 * grunts and chasers at the top of the screen, and the per-frame cleanup
 * that destroys enemies that have left the bottom of the screen.
 */
module Enemies {

  import opened State

  /**
   * The random draws behind one spawned enemy: its x from
   * `Between(50, 750)`, the `Math.random()` value that picks its kind, and a
   * grunt's horizontal speed from `Between(-50, 50)`.
   */
  datatype Draw = Draw(x: int, chance: real, vx: int)

  type Roll = d: Draw | 50 <= d.x <= 750 && 0.0 <= d.chance < 1.0 && -50 <= d.vx <= 50
    witness Draw(50, 0.0, 0)

  /** Enemies per spawn tick: one, plus one more for every two waves. */
  function SpawnCount(level: int): (n: int)
    ensures 2 * (n - 1) <= level < 2 * n
    ensures level >= 0 ==> n >= 1
  {
    level / 2 + 1
  }

  /** The enemy one draw produces at the given wave. */
  function Spawned(d: Roll, level: int): (e: Enemy)
    ensures e.active && e.y == -50 && e.x == d.x && 50 <= e.x <= 750
    ensures e.kind == Grunt <==> d.chance > 0.3
    ensures e.kind == Grunt ==> e.vx == d.vx && -50 <= e.vx <= 50 && e.vy == 100 + 10 * level
    ensures e.kind == Chaser ==> e.vx == 0 && e.vy == 0
  {
    if d.chance > 0.3 then Enemy(Grunt, d.x, -50, d.vx, 100 + level * 10, true)
    else Enemy(Chaser, d.x, -50, 0, 0, true)
  }

  /** The batch of one spawn tick; a non-positive count runs the loop zero times. */
  function Batch(level: int, draw: nat -> Roll): (b: seq<Enemy>)
  {
    var n := SpawnCount(level);
    seq(if n < 0 then 0 else n, i requires 0 <= i => Spawned(draw(i), level))
  }

  /**
   * One spawn tick. Nothing happens once the game is over; otherwise the
   * batch is appended to the group and nothing else changes.
   */
  function Spawn(s: GameState, draw: nat -> Roll): (r: GameState)
    ensures s.isGameOver ==> r == s
    ensures !s.isGameOver ==> r == s.(enemies := r.enemies)
    ensures !s.isGameOver && s.level >= 0 ==> |r.enemies| == |s.enemies| + SpawnCount(s.level)
    ensures !s.isGameOver ==> |s.enemies| <= |r.enemies| && r.enemies[..|s.enemies|] == s.enemies
    ensures !s.isGameOver ==> forall i :: |s.enemies| <= i < |r.enemies| ==>
              r.enemies[i] == Spawned(draw(i - |s.enemies|), s.level)
  {
    if s.isGameOver then s
    else s.(enemies := s.enemies + Batch(s.level, draw))
  }

  /** An active enemy below the bottom edge of the screen. */
  predicate Escaped(e: Enemy)
  {
    e.active && e.y > 650
  }

  /**
   * The cleanup loop as written: a `forEach` over the group's live children
   * array, where destroying the visited enemy splices it out, so the enemy
   * that slides into the visited position is passed over. `k` is the loop's
   * index into the current array.
   */
  function CullFrom(es: seq<Enemy>, k: nat): (r: seq<Enemy>)
    ensures multiset(r) <= multiset(es)
    decreases |es| - k
  {
    if k >= |es| then es
    else if Escaped(es[k]) then CullFrom(Remove(es, k), k + 1)
    else CullFrom(es, k + 1)
  }

  function CullEnemies(es: seq<Enemy>): (r: seq<Enemy>)
  {
    CullFrom(es, 0)
  }

  /**
   * Reference description of the same pass over the original order: an
   * enemy is destroyed when it has escaped and its predecessor was not
   * destroyed; `skip` says whether the predecessor was destroyed.
   */
  function Sweep(es: seq<Enemy>, skip: bool): (r: seq<Enemy>)
  {
    if es == [] then []
    else
      var gone := !skip && Escaped(es[0]);
      (if gone then [] else [es[0]]) + Sweep(es[1..], gone)
  }

  /** The enemies that have not escaped, in order. */
  function OnScreen(es: seq<Enemy>): seq<Enemy>
  {
    if es == [] then []
    else (if Escaped(es[0]) then [] else [es[0]]) + OnScreen(es[1..])
  }

  /** The live-array loop and the reference pass agree from every loop position. */
  lemma {:induction false} CullFromIsSweep(es: seq<Enemy>, k: nat)
    requires k <= |es|
    ensures CullFrom(es, k) == es[..k] + Sweep(es[k..], false)
    decreases |es| - k
  {
    if k == |es| {
      assert es[k..] == [];
    } else if !Escaped(es[k]) {
      CullFromIsSweep(es, k + 1);
      KeepStep(es, k);
    } else if k + 1 < |es| {
      CullFromIsSweep(Remove(es, k), k + 1);
      DropStep(es, k);
    } else {
      assert Remove(es, k) == es[..k];
      assert es[k..] == [es[k]];
      assert Sweep([es[k]], false) == [] + Sweep([], true);
    }
  }

  /** A visited enemy that stays: the reference pass keeps it and goes on normally. */
  lemma KeepStep(es: seq<Enemy>, k: nat)
    requires k < |es| && !Escaped(es[k])
    ensures es[..k] + Sweep(es[k..], false) == es[..k + 1] + Sweep(es[k + 1..], false)
  {
    assert es[k..][1..] == es[k + 1..];
    assert es[..k] + [es[k]] == es[..k + 1];
  }

  /** A visited enemy that goes: the reference pass drops it and keeps the next one unvisited. */
  lemma DropStep(es: seq<Enemy>, k: nat)
    requires k + 1 < |es| && Escaped(es[k])
    ensures es[..k] + Sweep(es[k..], false) == Remove(es, k)[..k + 1] + Sweep(Remove(es, k)[k + 1..], false)
  {
    var es' := Remove(es, k);
    assert es[k..][1..] == es[k + 1..];
    assert es[k + 1..][1..] == es[k + 2..];
    assert Sweep(es[k..], false) == Sweep(es[k + 1..], true);
    assert Sweep(es[k + 1..], true) == [es[k + 1]] + Sweep(es[k + 2..], false);
    assert es'[..k + 1] == es[..k] + [es[k + 1]];
    assert es'[k + 1..] == es[k + 2..];
  }

  lemma CullIsSweep(es: seq<Enemy>)
    ensures CullEnemies(es) == Sweep(es, false)
  {
    CullFromIsSweep(es, 0);
  }

  /** The pass keeps every enemy still on screen, in order, and only drops enemies it was given. */
  lemma {:induction false} SweepKeepsOnScreen(es: seq<Enemy>, skip: bool)
    ensures OnScreen(Sweep(es, skip)) == OnScreen(es)
    ensures multiset(Sweep(es, skip)) <= multiset(es)
    decreases |es|
  {
    if es != [] {
      var gone := !skip && Escaped(es[0]);
      SweepKeepsOnScreen(es[1..], gone);
      OnScreenAppend(if gone then [] else [es[0]], Sweep(es[1..], gone));
      assert es == [es[0]] + es[1..];
    }
  }

  lemma {:induction false} OnScreenAppend(a: seq<Enemy>, b: seq<Enemy>)
    ensures OnScreen(a + b) == OnScreen(a) + OnScreen(b)
    decreases |a|
  {
    if a == [] {
      assert a + b == b;
    } else {
      assert (a + b)[1..] == a[1..] + b;
      OnScreenAppend(a[1..], b);
    }
  }

  /** A frame with an escaped enemy in the group destroys at least one enemy. */
  lemma {:induction false} SweepProgress(es: seq<Enemy>, i: nat)
    requires i < |es| && Escaped(es[i])
    ensures |Sweep(es, false)| < |es|
    decreases i
  {
    SweepLength(es[1..], Escaped(es[0]));
    if !Escaped(es[0]) {
      SweepProgress(es[1..], i - 1);
    }
  }

  lemma {:induction false} SweepLength(es: seq<Enemy>, skip: bool)
    ensures |Sweep(es, skip)| <= |es|
    decreases |es|
  {
    if es != [] {
      SweepLength(es[1..], !skip && Escaped(es[0]));
    }
  }

  /**
   * A group of exactly two escaped enemies: the cleanup destroys only the
   * first in that frame, because the second slides into the first's position.
   */
  lemma AdjacentEscapees(a: Enemy, b: Enemy)
    requires Escaped(a) && Escaped(b)
    ensures CullEnemies([a, b]) == [b]
  {
    CullIsSweep([a, b]);
    assert [a, b][1..] == [b];
    assert [b][1..] == [];
    assert Sweep([b], true) == [b];
  }

  /** The pass goes through a run of on-screen enemies without dropping or skipping anything. */
  lemma {:induction false} SweepOnScreenPrefix(p: seq<Enemy>, xs: seq<Enemy>)
    requires forall i :: 0 <= i < |p| ==> !Escaped(p[i])
    ensures Sweep(p + xs, false) == p + Sweep(xs, false)
    decreases |p|
  {
    if p == [] {
      assert p + xs == xs;
    } else {
      assert (p + xs)[0] == p[0];
      assert (p + xs)[1..] == p[1..] + xs;
      SweepOnScreenPrefix(p[1..], xs);
      assert Sweep(p + xs, false) == [p[0]] + Sweep(p[1..] + xs, false);
      assert p == [p[0]] + p[1..];
    }
  }

  /**
   * The enemy directly after the first one the loop destroys survives the
   * frame, escaped or not, and the loop carries on with the rest as from a
   * fresh start. With three escaped enemies in a row, the middle one is the
   * survivor.
   */
  lemma SkipAfterDestroy(p: seq<Enemy>, a: Enemy, b: Enemy, rest: seq<Enemy>)
    requires forall i :: 0 <= i < |p| ==> !Escaped(p[i])
    requires Escaped(a)
    ensures CullEnemies(p + [a, b] + rest) == p + [b] + CullEnemies(rest)
  {
    var xs := [a, b] + rest;
    assert p + [a, b] + rest == p + xs;
    CullIsSweep(p + xs);
    SweepOnScreenPrefix(p, xs);
    assert xs[1..] == [b] + rest && ([b] + rest)[1..] == rest;
    CullIsSweep(rest);
  }

  /** Three escaped enemies in a row: the first and third go, the middle one survives the frame. */
  lemma ThreeEscapees(es: seq<Enemy>)
    requires |es| == 3 && Escaped(es[0]) && Escaped(es[1]) && Escaped(es[2])
    ensures CullEnemies(es) == [es[1]]
  {
    var none: seq<Enemy> := [];
    assert es == none + [es[0], es[1]] + [es[2]];
    SkipAfterDestroy(none, es[0], es[1], [es[2]]);
    LoneEscapee(es[2]);
  }

  /** A lone escaped enemy is simply destroyed. */
  lemma LoneEscapee(e: Enemy)
    requires Escaped(e)
    ensures CullEnemies([e]) == []
  {
    CullIsSweep([e]);
  }

  /** The cleanup leaves only active enemies when it is given only active ones. */
  lemma CullKeepsActive(es: seq<Enemy>)
    requires AllActive(es)
    ensures AllActive(CullEnemies(es))
  {
    var r := CullEnemies(es);
    forall e | e in r
      ensures e.active
    {
      assert e in multiset(r);
    }
  }
}

=== FILE: frame.dfy ===
/**
 * One call of the scene's per-frame update: the game-over gate with its
 * restart key, steering from the direction keys, the dash impulse, firing
 * from the bullet pool, and the off-screen cleanup of bullets and enemies.
 */
module Frame {

  import opened Wrappers
  import opened State
  import opened Pool
  import opened Enemies

  /**
   * The logical controls for one frame, each already merged over its arrow
   * key and its WASD key. `fire` is the fire key's held state; `dashPressed`
   * is true only on the frame the dash key goes down.
   */
  datatype Input = Input(left: bool, right: bool, up: bool, down: bool, fire: bool, dashPressed: bool)

  /** Thrust magnitude along each held axis. */
  const Thrust: int := 800
  /** Minimum time between two shots, in milliseconds. */
  const FireDelay: int := 150
  /** Minimum time between two dashes, in milliseconds. */
  const DashDelay: int := 1000
  /** A new bullet starts this far above the ship ... */
  const MuzzleOffset: int := 20
  /** ... and flies upward at this speed. */
  const BulletSpeed: int := 500

  /**
   * Acceleration from the direction keys. Each axis is decided on its own;
   * when both keys of an axis are held, left (resp. up) wins.
   */
  function Steer(p: Player, input: Input): (r: Player)
    ensures r.ax == -Thrust <==> input.left
    ensures r.ax == Thrust <==> !input.left && input.right
    ensures r.ax == 0 <==> !input.left && !input.right
    ensures r.ay == -Thrust <==> input.up
    ensures r.ay == Thrust <==> !input.up && input.down
    ensures r.ay == 0 <==> !input.up && !input.down
    ensures r == p.(ax := r.ax, ay := r.ay)
  {
    var ax := if input.left then -Thrust else if input.right then Thrust else 0;
    var ay := if input.up then -Thrust else if input.down then Thrust else 0;
    p.(ax := ax, ay := ay)
  }

  /**
   * The dash: a fresh press after the cooldown has run out doubles both
   * velocity components, with no speed cap, and restarts the cooldown.
   */
  function Dash(s: GameState, time: int, pressed: bool): (r: GameState)
    ensures !pressed || time <= s.dashCooldown ==> r == s
    ensures pressed && time > s.dashCooldown ==>
      && r.player.vx == 2 * s.player.vx && r.player.vy == 2 * s.player.vy
      && r.dashCooldown == time + DashDelay
      && r == s.(player := r.player, dashCooldown := r.dashCooldown)
      && r.player == s.player.(vx := r.player.vx, vy := r.player.vy)
  {
    if pressed && time > s.dashCooldown then
      s.(player := s.player.(vx := s.player.vx * 2, vy := s.player.vy * 2),
         dashCooldown := time + DashDelay)
    else s
  }

  /** The bullet a shot puts in flight from a ship at (x, y). */
  function Shot(x: int, y: int): Bullet
  {
    Bullet(x, y - MuzzleOffset, 0, -BulletSpeed, true)
  }

  /**
   * Shooting. With the key held and the cooldown over, the pool is asked for
   * a slot; if it gives one, a bullet leaves 20 units above the ship heading
   * up at 500 and the cooldown restarts at 150 ms. A full pool leaves
   * everything, the cooldown included, as it was.
   */
  function Fire(s: GameState, time: int, held: bool): (r: GameState)
    ensures !held || time <= s.lastFired || Acquire(s.bullets).None? ==> r == s
    ensures held && time > s.lastFired && Acquire(s.bullets).Some? ==>
      var i := Acquire(s.bullets).value;
      && r == s.(bullets := r.bullets, lastFired := r.lastFired)
      && r.lastFired == time + FireDelay
      && i < |r.bullets| && |s.bullets| <= |r.bullets|
      && r.bullets[i] == Bullet(s.player.x, s.player.y - 20, 0, -500, true)
      && (forall j :: 0 <= j < |s.bullets| && j != i ==> r.bullets[j] == s.bullets[j])
      && ActiveCount(r.bullets) == ActiveCount(s.bullets) + 1
    ensures |s.bullets| <= MaxBullets ==> |r.bullets| <= MaxBullets
    ensures r.lastFired != s.lastFired <==> held && time > s.lastFired && Acquire(s.bullets).Some?
  {
    if held && time > s.lastFired then
      match Acquire(s.bullets)
      case None => s
      case Some(i) =>
        var b := Shot(s.player.x, s.player.y);
        PlaceAddsOne(s.bullets, b);
        s.(bullets := Place(s.bullets, i, b), lastFired := time + FireDelay)
    else s
  }

  /**
   * One frame. While the game is over only the fire key matters, and it
   * restarts the session; otherwise steering, dash, shooting and the
   * off-screen cleanup run in that order. A frame never touches the score,
   * the wave, the hit points or the game-over flag.
   */
  function Update(s: GameState, time: int, input: Input): (r: GameState)
    ensures s.isGameOver && !input.fire ==> r == s
    ensures s.isGameOver && input.fire ==> r == Restart(s)
    ensures !s.isGameOver ==>
      && !r.isGameOver && r.score == s.score && r.level == s.level
      && r.player.hp == s.player.hp && r.player.invulnerable == s.player.invulnerable
      && r.player.x == s.player.x && r.player.y == s.player.y
    ensures !s.isGameOver ==> r.enemies == CullEnemies(s.enemies)
    ensures !s.isGameOver ==> |r.bullets| == |Fire(s, time, input.fire).bullets|
    ensures !s.isGameOver && |s.bullets| <= MaxBullets ==> |r.bullets| <= MaxBullets
  {
    if s.isGameOver then
      if input.fire then Restart(s) else s
    else
      var steered := s.(player := Steer(s.player, input));
      var dashed := Dash(steered, time, input.dashPressed);
      var fired := Fire(dashed, time, input.fire);
      fired.(bullets := CullBullets(fired.bullets), enemies := CullEnemies(fired.enemies))
  }
}

=== FILE: pool.dfy ===
/**
 * The bullet group: a recycling pool of at most `MaxBullets` slots. Getting
 * a bullet reuses the first inactive slot, grows the group while it is below
 * capacity, and otherwise yields nothing; killing a bullet deactivates its
 * slot and keeps it for reuse.
 */
module Pool {

  import opened Wrappers
  import opened State

  /** Index of the first inactive slot, or the pool length when every slot is in flight. */
  function FirstInactive(pool: seq<Bullet>): (k: nat)
    ensures k <= |pool|
    ensures forall j :: 0 <= j < k ==> pool[j].active
    ensures k < |pool| ==> !pool[k].active
  {
    if pool == [] then 0
    else if !pool[0].active then 0
    else 1 + FirstInactive(pool[1..])
  }

  /** The slot the group's `get` hands out: `None` exactly when the pool is full and every slot is in flight. */
  function Acquire(pool: seq<Bullet>): (r: Option<nat>)
    ensures r.None? <==> |pool| >= MaxBullets && forall j :: 0 <= j < |pool| ==> pool[j].active
    ensures r.Some? ==> r.value <= |pool|
    ensures r.Some? ==> forall j :: 0 <= j < r.value ==> pool[j].active
    ensures r.Some? && r.value < |pool| ==> !pool[r.value].active
    ensures r.Some? && r.value == |pool| ==> |pool| < MaxBullets
  {
    var k := FirstInactive(pool);
    if k < |pool| then Some(k)
    else if |pool| < MaxBullets then Some(|pool|)
    else None
  }

  /** Puts `b` in slot `i`, which is either an existing slot or the next new one. */
  function Place(pool: seq<Bullet>, i: nat, b: Bullet): (r: seq<Bullet>)
    requires i <= |pool|
    ensures |r| == if i < |pool| then |pool| else |pool| + 1
    ensures r[i] == b
    ensures forall j :: 0 <= j < |pool| && j != i ==> r[j] == pool[j]
  {
    if i < |pool| then pool[i := b] else pool + [b]
  }

  /** Kill-and-hide plus disabling the body: the slot goes inactive and stops moving. */
  function Release(b: Bullet): (r: Bullet)
    ensures !r.active && r.vx == 0 && r.vy == 0
    ensures r.x == b.x && r.y == b.y
  {
    b.(active := false, vx := 0, vy := 0)
  }

  /** A bullet that has left the top of the playfield. */
  predicate Gone(b: Bullet)
  {
    b.active && b.y < -50
  }

  /** The per-frame bullet cleanup: exactly the active bullets still above y = -50 stay in flight, unchanged. */
  function CullBullets(pool: seq<Bullet>): (r: seq<Bullet>)
    ensures |r| == |pool|
    ensures forall i :: 0 <= i < |pool| ==> (r[i].active <==> pool[i].active && pool[i].y >= -50)
    ensures forall i :: 0 <= i < |pool| && r[i].active ==> r[i] == pool[i]
  {
    seq(|pool|, i requires 0 <= i < |pool| => if Gone(pool[i]) then Release(pool[i]) else pool[i])
  }

  function Indicator(b: Bullet): nat
  {
    if b.active then 1 else 0
  }

  /** Overwriting one slot changes the in-flight count by the difference of the two flags. */
  lemma {:induction false} ActiveCountUpdate(pool: seq<Bullet>, i: nat, b: Bullet)
    requires i < |pool|
    ensures ActiveCount(pool[i := b]) + Indicator(pool[i]) == ActiveCount(pool) + Indicator(b)
    decreases |pool|
  {
    if i == 0 {
      assert pool[i := b][1..] == pool[1..];
    } else {
      assert pool[i := b][1..] == pool[1..][i - 1 := b];
      ActiveCountUpdate(pool[1..], i - 1, b);
    }
  }

  /** Growing the pool by one slot adds that slot's flag to the in-flight count. */
  lemma {:induction false} ActiveCountAppend(pool: seq<Bullet>, b: Bullet)
    ensures ActiveCount(pool + [b]) == ActiveCount(pool) + Indicator(b)
    decreases |pool|
  {
    if pool == [] {
      assert pool + [b] == [b];
    } else {
      assert (pool + [b])[1..] == pool[1..] + [b];
      ActiveCountAppend(pool[1..], b);
    }
  }

  /** Filling the slot `Acquire` chose with a live bullet puts exactly one more bullet in flight. */
  lemma PlaceAddsOne(pool: seq<Bullet>, b: Bullet)
    requires Acquire(pool).Some?
    requires b.active
    ensures ActiveCount(Place(pool, Acquire(pool).value, b)) == ActiveCount(pool) + 1
  {
    var i := Acquire(pool).value;
    if i < |pool| {
      ActiveCountUpdate(pool, i, b);
    } else {
      ActiveCountAppend(pool, b);
    }
  }

  /** A slot-wise weaker pool has no more bullets in flight. */
  lemma {:induction false} ActiveCountMono(a: seq<Bullet>, b: seq<Bullet>)
    requires |a| == |b|
    requires forall i :: 0 <= i < |a| && a[i].active ==> b[i].active
    ensures ActiveCount(a) <= ActiveCount(b)
    decreases |a|
  {
    if a != [] {
      ActiveCountMono(a[1..], b[1..]);
    }
  }

  /** The cleanup never puts a bullet in flight. */
  lemma CullNeverAdds(pool: seq<Bullet>)
    ensures ActiveCount(CullBullets(pool)) <= ActiveCount(pool)
  {
    ActiveCountMono(CullBullets(pool), pool);
  }
}

=== FILE: session.dfy ===
/**
 * The whole session as a sequence of events on an immutable state: frames
 * from the render loop, ticks of the one-second spawn timer, overlaps the
 * physics engine reports, and the engine's motion updates. The lemmas state
 * what holds of every state reachable from the start of a session.
 */
module Session {

  import opened State
  import opened Pool
  import opened Enemies
  import opened Collisions
  import opened Frame

  datatype Event =
    | Tick(time: int, input: Input)
    | SpawnTick(draw: nat -> Roll)
    | BulletHitsEnemy(bullet: int, enemy: int)
    | EnemyHitsPlayer(enemy: int)
    | PlayerMoved(x: int, y: int, vx: int, vy: int)
    | BulletMoved(bullet: int, x: int, y: int)
    | EnemyMoved(enemy: int, x: int, y: int, vx: int, vy: int)

  /** Events that come from the physics engine, which stands still once the game is over. */
  predicate Physical(ev: Event)
  {
    !ev.Tick? && !ev.SpawnTick?
  }

  /** A frame whose fire key is held: the only event that leaves the game-over screen. */
  predicate RestartPress(ev: Event)
  {
    ev.Tick? && ev.input.fire
  }

  /**
   * Applies an engine event while physics runs. Disabled bullets are not
   * moved; an index outside its collection names nothing and changes
   * nothing.
   */
  function Physics(s: GameState, ev: Event): (r: GameState)
    requires Physical(ev)
    ensures r.score != s.score ==> ev.BulletHitsEnemy? && r.score == s.score + KillPoints
    ensures r.player.hp < s.player.hp <= MaxHp ==> ev.EnemyHitsPlayer?
    ensures r.isGameOver != s.isGameOver ==> ev.EnemyHitsPlayer? && r.player.hp <= 0
  {
    match ev
    case BulletHitsEnemy(b, e) => HitEnemy(s, b, e)
    case EnemyHitsPlayer(e) => HitPlayer(s, e)
    case PlayerMoved(x, y, vx, vy) =>
      s.(player := s.player.(x := x, y := y, vx := vx, vy := vy))
    case BulletMoved(i, x, y) =>
      if 0 <= i < |s.bullets| && s.bullets[i].active then
        s.(bullets := s.bullets[i := s.bullets[i].(x := x, y := y)])
      else s
    case EnemyMoved(i, x, y, vx, vy) =>
      if 0 <= i < |s.enemies| then
        s.(enemies := s.enemies[i := s.enemies[i].(x := x, y := y, vx := vx, vy := vy)])
      else s
  }

  /** One event. The physics engine is paused once the game is over, so its events are ignored then. */
  function Step(s: GameState, ev: Event): (r: GameState)
    ensures s.isGameOver && !RestartPress(ev) ==> r == s
    ensures s.isGameOver && RestartPress(ev) ==> r == Restart(s)
  {
    match ev
    case Tick(time, input) => Update(s, time, input)
    case SpawnTick(draw) => Spawn(s, draw)
    case _ => if s.isGameOver then s else Physics(s, ev)
  }

  function Run(s: GameState, evs: seq<Event>): GameState
    decreases |evs|
  {
    if evs == [] then s else Run(Step(s, evs[0]), evs[1..])
  }

  lemma SpawnKeepsActive(s: GameState, draw: nat -> Roll)
    requires AllActive(s.enemies)
    ensures AllActive(Spawn(s, draw).enemies)
  {
    var r := Spawn(s, draw);
    if !s.isGameOver {
      forall e | e in r.enemies
        ensures e.active
      {
        var i :| 0 <= i < |r.enemies| && r.enemies[i] == e;
        if i < |s.enemies| {
          assert r.enemies[..|s.enemies|][i] == e;
        }
      }
    }
  }

  lemma RemoveKeepsActive(es: seq<Enemy>, r: seq<Enemy>, x: Enemy)
    requires AllActive(es)
    requires multiset(r) + multiset{x} == multiset(es)
    ensures AllActive(r)
  {
    forall e | e in r
      ensures e.active
    {
      assert e in multiset(r);
      assert e in multiset(es);
    }
  }

  lemma TickKeepsInv(s: GameState, time: int, input: Input)
    requires Inv(s)
    ensures Inv(Update(s, time, input))
  {
    if s.isGameOver {
      RestartInv(s);
    } else {
      CullKeepsActive(s.enemies);
    }
  }

  lemma HitEnemyKeepsInv(s: GameState, b: int, e: int)
    requires Inv(s) && !s.isGameOver
    ensures Inv(HitEnemy(s, b, e))
  {
    if Live(s, b, e) {
      WaveFollowsScore(s, b, e);
      RemoveKeepsActive(s.enemies, HitEnemy(s, b, e).enemies, s.enemies[e]);
    }
  }

  lemma HitPlayerKeepsInv(s: GameState, e: int)
    requires Inv(s) && !s.isGameOver
    ensures Inv(HitPlayer(s, e))
  {
    if 0 <= e < |s.enemies| {
      RemoveKeepsActive(s.enemies, HitPlayer(s, e).enemies, s.enemies[e]);
    }
  }

  lemma EnemyMovedKeepsInv(s: GameState, ev: Event)
    requires Inv(s) && !s.isGameOver && ev.EnemyMoved?
    ensures Inv(Physics(s, ev))
  {
    var r := Physics(s, ev);
    var i := ev.enemy;
    if 0 <= i < |s.enemies| {
      forall e | e in r.enemies
        ensures e.active
      {
        var j :| 0 <= j < |r.enemies| && r.enemies[j] == e;
        if j != i {
          assert s.enemies[j] in s.enemies;
        }
      }
    }
  }

  /** Every event keeps the invariant. */
  lemma StepKeepsInv(s: GameState, ev: Event)
    requires Inv(s)
    ensures Inv(Step(s, ev))
  {
    if !s.isGameOver || !Physical(ev) {
      match ev
      case Tick(time, input) => TickKeepsInv(s, time, input);
      case SpawnTick(draw) => SpawnKeepsActive(s, draw);
      case BulletHitsEnemy(b, e) => HitEnemyKeepsInv(s, b, e);
      case EnemyHitsPlayer(e) => HitPlayerKeepsInv(s, e);
      case PlayerMoved(_, _, _, _) =>
      case BulletMoved(_, _, _) =>
      case EnemyMoved(_, _, _, _, _) => EnemyMovedKeepsInv(s, ev);
    }
  }

  /** Every run of events keeps the invariant. */
  lemma {:induction false} RunKeepsInv(s: GameState, evs: seq<Event>)
    requires Inv(s)
    ensures Inv(Run(s, evs))
    decreases |evs|
  {
    if evs != [] {
      StepKeepsInv(s, evs[0]);
      RunKeepsInv(Step(s, evs[0]), evs[1..]);
    }
  }

  /**
   * From the start of a session, whatever happens: the score is a
   * non-negative multiple of 100, the wave is 1 + score / 1000, the hit
   * points are a multiple of 20 in [0, 100], at most 50 bullets fly, and
   * the game is over exactly when the hit points are gone.
   */
  lemma Reachable(evs: seq<Event>)
    ensures var s := Run(Initial(), evs);
      && s.score >= 0 && s.score % 100 == 0
      && s.level == 1 + s.score / 1000
      && 0 <= s.player.hp <= 100 && s.player.hp % 20 == 0
      && (s.isGameOver <==> s.player.hp == 0)
      && ActiveCount(s.bullets) <= 50
  {
    InitialInv();
    RunKeepsInv(Initial(), evs);
  }

  /** While the game is over, a run without a held fire key changes nothing at all. */
  lemma {:induction false} GameOverAbsorbs(s: GameState, evs: seq<Event>)
    requires s.isGameOver
    requires forall i :: 0 <= i < |evs| ==> !RestartPress(evs[i])
    ensures Run(s, evs) == s
    decreases |evs|
  {
    if evs != [] {
      assert !RestartPress(evs[0]);
      GameOverAbsorbs(s, evs[1..]);
    }
  }

  /** Spawning and every engine event are ignored on the game-over screen; a frame with fire held restarts. */
  lemma OnlyRestartLeavesGameOver(s: GameState, ev: Event)
    requires s.isGameOver
    ensures !Step(s, ev).isGameOver <==> RestartPress(ev)
    ensures RestartPress(ev) ==> Step(s, ev).score == 0 && Step(s, ev).level == 1
  {
  }

  /**
   * Once a frame has fired, a second frame at most 150 ms later fires
   * nothing: the cooldown stays put and no bullet is added.
   */
  lemma FireRateLimited(s: GameState, t1: int, i1: Input, t2: int, i2: Input)
    requires !s.isGameOver
    requires Update(s, t1, i1).lastFired != s.lastFired
    requires t2 <= t1 + FireDelay
    ensures Update(s, t1, i1).lastFired == t1 + FireDelay
    ensures Update(Update(s, t1, i1), t2, i2).lastFired == Update(s, t1, i1).lastFired
    ensures ActiveCount(Update(Update(s, t1, i1), t2, i2).bullets) <= ActiveCount(Update(s, t1, i1).bullets)
  {
    var s1 := Update(s, t1, i1);
    var steered := s1.(player := Steer(s1.player, i2));
    var dashed := Dash(steered, t2, i2.dashPressed);
    assert Fire(dashed, t2, i2.fire) == dashed;
    CullNeverAdds(dashed.bullets);
  }

  /**
   * Once a frame has dashed, a second frame at most 1000 ms later does not:
   * the ship's velocity and the cooldown are left as they were.
   */
  lemma DashRateLimited(s: GameState, t1: int, i1: Input, t2: int, i2: Input)
    requires !s.isGameOver
    requires Update(s, t1, i1).dashCooldown != s.dashCooldown
    requires t2 <= t1 + DashDelay
    ensures Update(s, t1, i1).dashCooldown == t1 + DashDelay
    ensures Update(Update(s, t1, i1), t2, i2).dashCooldown == Update(s, t1, i1).dashCooldown
    ensures Update(Update(s, t1, i1), t2, i2).player.vx == Update(s, t1, i1).player.vx
    ensures Update(Update(s, t1, i1), t2, i2).player.vy == Update(s, t1, i1).player.vy
  {
  }

  /** `k` consecutive enemy collisions, each with the first enemy of the group. */
  function Rams(k: nat): (evs: seq<Event>)
    ensures |evs| == k
  {
    seq(k, _ => EnemyHitsPlayer(0))
  }

  /**
   * Each collision costs 20 hit points and one enemy, and the game ends with
   * the collision that brings the hit points to zero or below.
   */
  lemma {:induction false} RepeatedRams(s: GameState, k: nat)
    requires !s.isGameOver && !s.player.invulnerable
    requires k <= |s.enemies| && s.player.hp > 0 && s.player.hp >= 20 * k
    ensures Run(s, Rams(k)).player.hp == s.player.hp - 20 * k
    ensures |Run(s, Rams(k)).enemies| == |s.enemies| - k
    ensures Run(s, Rams(k)).isGameOver <==> s.player.hp - 20 * k <= 0
    ensures Run(s, Rams(k)).isGameOver <==> s.player.hp == 20 * k
    ensures Run(s, Rams(k)).score == s.score
    decreases k
  {
    if k > 0 {
      var s' := Step(s, EnemyHitsPlayer(0));
      assert Rams(k)[0] == EnemyHitsPlayer(0);
      assert Rams(k)[1..] == Rams(k - 1);
      if k > 1 {
        RepeatedRams(s', k - 1);
      }
    }
  }

  /** From full health with no heals in between, the fifth collision ends the game and the fourth does not. */
  lemma FifthHitEndsGame(s: GameState)
    requires Inv(s) && !s.isGameOver && s.player.hp == 100
    requires |s.enemies| >= 5
    ensures !Run(s, Rams(4)).isGameOver && Run(s, Rams(4)).player.hp == 20
    ensures Run(s, Rams(5)).isGameOver && Run(s, Rams(5)).player.hp == 0
  {
    RepeatedRams(s, 4);
    RepeatedRams(s, 5);
  }

  /** Restart from game over: an empty field at score 0, wave 1, full health, play resumed. */
  lemma RestartScenario(s: GameState, t: int, input: Input)
    requires s.isGameOver && input.fire
    ensures var r := Step(s, Tick(t, input));
      && r.score == 0 && r.level == 1 && !r.isGameOver && r.player.hp == 100
      && r.bullets == [] && r.enemies == []
      && Inv(r)
  {
    RestartInv(s);
  }
}

=== FILE: state.dfy ===
/**
 * The scene-wide state of the arcade shooter: the player ship, the pooled
 * bullets, the live enemies and the score/wave/game-over globals, together
 * with the start-of-session value and the invariant every reachable state
 * keeps.
 */
module State {

  /** Capacity of the bullet group (`maxSize`). */
  const MaxBullets: nat := 50
  /** Points for one destroyed enemy. */
  const KillPoints: int := 100
  /** Every multiple of this score starts a new wave. */
  const WavePoints: int := 1000
  /** Hit points of a fresh ship; heals never exceed it. */
  const MaxHp: int := 100
  /** Hit points lost per enemy that reaches the ship. */
  const Damage: int := 20
  /** Hit points restored at each wave-up. */
  const Heal: int := 20

  /** The ship: position, velocity, acceleration, hit points and the (never set) invulnerability flag. */
  datatype Player = Player(x: int, y: int, vx: int, vy: int, ax: int, ay: int, hp: int, invulnerable: bool)

  /** A slot of the bullet pool; an inactive slot is free for reuse. */
  datatype Bullet = Bullet(x: int, y: int, vx: int, vy: int, active: bool)

  /** The two enemy textures, which select the behaviour. */
  datatype Kind = Grunt | Chaser

  datatype Enemy = Enemy(kind: Kind, x: int, y: int, vx: int, vy: int, active: bool)

  datatype GameState = GameState(
    player: Player,
    bullets: seq<Bullet>,
    enemies: seq<Enemy>,
    score: int,
    level: int,
    isGameOver: bool,
    lastFired: int,
    dashCooldown: int)

  /** The ship as the scene's create step builds it. */
  function FreshPlayer(): Player
  {
    Player(400, 500, 0, 0, 0, 0, MaxHp, false)
  }

  /** The state when the page is loaded: module-level globals plus a freshly created scene. */
  function Initial(): GameState
  {
    GameState(FreshPlayer(), [], [], 0, 1, false, 0, 0)
  }

  /**
   * Restart resets score, wave and the game-over flag and rebuilds the scene
   * (fresh ship, empty groups). The fire and dash timestamps are module-level
   * globals that neither the restart nor the create step touches, so they
   * survive.
   */
  function Restart(s: GameState): (r: GameState)
    ensures r.score == 0 && r.level == 1 && !r.isGameOver
    ensures r.player == FreshPlayer() && r.player.hp == MaxHp
    ensures r.bullets == [] && r.enemies == []
    ensures r.lastFired == s.lastFired && r.dashCooldown == s.dashCooldown
  {
    Initial().(lastFired := s.lastFired, dashCooldown := s.dashCooldown)
  }

  predicate AllActive(es: seq<Enemy>)
  {
    forall e :: e in es ==> e.active
  }

  /**
   * What holds of every state the game can reach: the score counts kills,
   * the wave follows the score, the hit points move in steps of 20 inside
   * [0, 100] and are zero exactly when the game is over, the pool never
   * outgrows its capacity, and every enemy in the group is active.
   * The lower bound `hp >= 0` and "game over iff hp == 0" are properties of
   * the event model, in which no engine event is delivered once the game is
   * over. The collider in the source can still report a second overlap in
   * the physics step that ends the game, which takes hp below zero
   * (`Collisions.SameStepDoubleHit`).
   */
  predicate Inv(s: GameState)
  {
    && s.score >= 0 && s.score % KillPoints == 0
    && s.level == 1 + s.score / WavePoints
    && 0 <= s.player.hp <= MaxHp && s.player.hp % Damage == 0
    && (s.isGameOver <==> s.player.hp == 0)
    && !s.player.invulnerable
    && |s.bullets| <= MaxBullets
    && AllActive(s.enemies)
  }

  /** Removing element `i`, as a group does when one of its members is destroyed. */
  function Remove<T>(xs: seq<T>, i: int): (r: seq<T>)
    requires 0 <= i < |xs|
    ensures |r| == |xs| - 1
    ensures forall j :: 0 <= j < i ==> r[j] == xs[j]
    ensures forall j :: i <= j < |r| ==> r[j] == xs[j + 1]
    ensures multiset(r) + multiset{xs[i]} == multiset(xs)
  {
    assert xs == xs[..i] + [xs[i]] + xs[i + 1..];
    xs[..i] + xs[i + 1..]
  }

  /** Number of bullets in flight. */
  function ActiveCount(bs: seq<Bullet>): (n: nat)
    ensures n <= |bs|
  {
    if bs == [] then 0 else (if bs[0].active then 1 else 0) + ActiveCount(bs[1..])
  }

  /**
   * The page-load state: the globals start at score 0, wave 1, no game over
   * and both timestamps 0, the ship at full health, and that state is good.
   */
  lemma InitialInv()
    ensures Initial().score == 0 && Initial().level == 1 && !Initial().isGameOver
    ensures Initial().lastFired == 0 && Initial().dashCooldown == 0
    ensures Initial().player.hp == MaxHp && Initial().bullets == [] && Initial().enemies == []
    ensures Inv(Initial())
  {
  }

  /** Restart always lands in a good state, whatever state it starts from. */
  lemma RestartInv(s: GameState)
    ensures Inv(Restart(s))
    ensures Restart(Restart(s)) == Restart(s)
  {
  }
}

=== FILE: wav.dfy ===
/**
 * The in-memory audio file behind each sound effect: a canonical 44-byte
 * RIFF WAVE header for mono 16-bit PCM (format tag 1, WAVE_FORMAT_PCM, as the
 * WAVE form of the IBM/Microsoft Multimedia Programming Interface and Data
 * Specifications 1.0 lays it out) followed by one little-endian signed 16-bit
 * sample per input value. A parser of the same layout serves as the
 * serialiser's inverse.
 */
module Wav {

  import opened Wrappers

  type byte = x: int | 0 <= x < 256

  const NumChannels: int := 1
  const BitsPerSample: int := 16
  /** Bytes per sample frame: channels times bits, shifted right by three. */
  const BlockAlign: int := NumChannels * BitsPerSample / 8
  const HeaderSize: int := 44
  const FmtChunkSize: int := 16
  const FormatPcm: int := 1
  /** Full-scale 16-bit sample value. */
  const FullScale: int := 32767

  const Two16: int := 0x1_0000
  const Two32: int := 0x1_0000_0000

  /** Unsigned 16-bit little-endian value at offset `i`. */
  function U16(b: seq<byte>, i: nat): int
    requires i + 2 <= |b|
  {
    b[i] as int + 256 * b[i + 1] as int
  }

  /** Unsigned 32-bit little-endian value at offset `i`. */
  function U32(b: seq<byte>, i: nat): int
    requires i + 4 <= |b|
  {
    b[i] as int + 256 * (b[i + 1] as int + 256 * (b[i + 2] as int + 256 * b[i + 3] as int))
  }

  /** Signed (two's complement) 16-bit little-endian value at offset `i`. */
  function I16(b: seq<byte>, i: nat): int
    requires i + 2 <= |b|
  {
    var u := U16(b, i);
    if u >= 0x8000 then u - Two16 else u
  }

  /** A 16-bit little-endian store: the value is reduced modulo 2^16 first, as a typed-array store does. */
  function LE16(v: int): (r: seq<byte>)
    ensures |r| == 2
    ensures U16(r, 0) == v % Two16
  {
    var u := v % Two16;
    [u % 256, u / 256]
  }

  /** A 32-bit little-endian store of the value modulo 2^32. */
  function LE32(v: int): (r: seq<byte>)
    ensures |r| == 4
    ensures U32(r, 0) == v % Two32
  {
    var u := v % Two32;
    var q1 := u / 256;
    var q2 := q1 / 256;
    [u % 256, q1 % 256, q2 % 256, q2 / 256]
  }

  /** One byte per character: the character code modulo 256. */
  function Ascii(s: string): (r: seq<byte>)
    ensures |r| == |s|
  {
    seq(|s|, i requires 0 <= i < |s| => (s[i] as int) % 256)
  }

  /** The four chunk identifiers are the ASCII codes of their letters. */
  lemma ChunkIds()
    ensures Ascii("RIFF") == [0x52, 0x49, 0x46, 0x46]
    ensures Ascii("WAVE") == [0x57, 0x41, 0x56, 0x45]
    ensures Ascii("fmt ") == [0x66, 0x6d, 0x74, 0x20]
    ensures Ascii("data") == [0x64, 0x61, 0x74, 0x61]
  {
  }

  /** The RIFF chunk header: tag, size of the rest of the file, form type. */
  function RiffPart(n: nat): (r: seq<byte>)
    ensures |r| == 12
  {
    Ascii("RIFF") + LE32(36 + n * BlockAlign) + Ascii("WAVE")
  }

  /** The `fmt ` chunk: size 16, PCM, mono, rate, byte rate, block align, bits per sample. */
  function FmtPart(sampleRate: int): (f: seq<byte>)
    ensures |f| == 24
  {
    Ascii("fmt ") + LE32(FmtChunkSize) + LE16(FormatPcm) + LE16(NumChannels)
    + LE32(sampleRate) + LE32(sampleRate * BlockAlign) + LE16(BlockAlign) + LE16(BitsPerSample)
  }

  /** The `data` chunk header: tag and the size of the sample data. */
  function DataPart(n: nat): (d: seq<byte>)
    ensures |d| == 8
  {
    Ascii("data") + LE32(n * BlockAlign)
  }

  /** The header for `n` samples at `sampleRate`, written in the order of the source's stores. */
  function Header(sampleRate: int, n: nat): (h: seq<byte>)
    ensures |h| == HeaderSize
  {
    RiffPart(n) + FmtPart(sampleRate) + DataPart(n)
  }

  /** Limits a sample value to the range [-1, 1]. */
  function Clamp(x: real): (c: real)
    ensures -1.0 <= c <= 1.0
    ensures -1.0 <= x <= 1.0 ==> c == x
    ensures x > 1.0 ==> c == 1.0
    ensures x < -1.0 ==> c == -1.0
  {
    if x > 1.0 then 1.0 else if x < -1.0 then -1.0 else x
  }

  /** Truncation toward zero, which `| 0` performs on values within 32-bit range. */
  function Trunc(r: real): (n: int)
    ensures r >= 0.0 ==> 0 <= n && n as real <= r < n as real + 1.0
    ensures r < 0.0 ==> n <= 0 && n as real - 1.0 < r <= n as real
  {
    if r >= 0.0 then r.Floor else -((-r).Floor)
  }

  /** A sample value scaled to 16-bit PCM: clamped to [-1, 1], scaled by 32767, truncated toward zero. */
  function Quantise(x: real): (q: int)
    ensures -FullScale <= q <= FullScale
    ensures x >= 1.0 ==> q == FullScale
    ensures x <= -1.0 ==> q == -FullScale
    ensures (q > 0 <==> x > 0.0 && x * FullScale as real >= 1.0)
  {
    Trunc(Clamp(x) * FullScale as real)
  }

  /** Quantisation is an odd function: a negated sample encodes as the negated value. */
  lemma QuantiseOdd(x: real)
    ensures Quantise(-x) == -Quantise(x)
  {
    var p := Clamp(x) * FullScale as real;
    assert Clamp(-x) * FullScale as real == -p;
  }

  /** The sample data: one 16-bit little-endian value per sample, in order. */
  function Pcm(xs: seq<real>): (r: seq<byte>)
    ensures |r| == 2 * |xs|
  {
    if xs == [] then [] else LE16(Quantise(xs[0])) + Pcm(xs[1..])
  }

  /** The whole file: header then sample data. */
  function Encode(xs: seq<real>, sampleRate: int): (b: seq<byte>)
    ensures |b| == HeaderSize + 2 * |xs|
  {
    Header(sampleRate, |xs|) + Pcm(xs)
  }

  /**
   * A typed-array store of `bytes` at the write cursor `p`, which then moves
   * past them: the buffer keeps its length, the bytes written so far are
   * followed by the new ones, and nothing after the cursor is touched.
   */
  method Put(buf: seq<byte>, p: nat, bytes: seq<byte>) returns (out: seq<byte>, q: nat)
    requires p + |bytes| <= |buf|
    ensures |out| == |buf| && q == p + |bytes|
    ensures out[..q] == buf[..p] + bytes
    ensures out[q..] == buf[q..]
    ensures forall k :: q <= k < |out| ==> out[k] == buf[k]
  {
    out := buf[..p] + bytes + buf[p + |bytes|..];
    q := p + |bytes|;
    assert out[..q] == buf[..p] + bytes;
  }

  /** The writes of the RIFF chunk header at the cursor: tag, 32-bit size, form type. */
  method WriteRiff(buf: seq<byte>, p: nat, n: nat) returns (out: seq<byte>, q: nat)
    requires p + 12 <= |buf|
    ensures |out| == |buf| && q == p + 12
    ensures out[..q] == buf[..p] + RiffPart(n)
    ensures out[q..] == buf[q..]
  {
    out, q := Put(buf, p, Ascii("RIFF"));
    out, q := Put(out, q, LE32(36 + n * BlockAlign));
    out, q := Put(out, q, Ascii("WAVE"));
  }

  /** The writes of the `fmt ` chunk at the cursor, field by field in the source's order. */
  method WriteFmt(buf: seq<byte>, p: nat, sampleRate: int) returns (out: seq<byte>, q: nat)
    requires p + 24 <= |buf|
    ensures |out| == |buf| && q == p + 24
    ensures out[..q] == buf[..p] + FmtPart(sampleRate)
    ensures out[q..] == buf[q..]
  {
    out, q := Put(buf, p, Ascii("fmt "));
    out, q := Put(out, q, LE32(FmtChunkSize));
    out, q := Put(out, q, LE16(FormatPcm));
    out, q := Put(out, q, LE16(NumChannels));
    out, q := Put(out, q, LE32(sampleRate));
    out, q := Put(out, q, LE32(sampleRate * BlockAlign));
    out, q := Put(out, q, LE16(BlockAlign));
    out, q := Put(out, q, LE16(BitsPerSample));
  }

  /** The writes of the `data` chunk header at the cursor: tag and 32-bit data size. */
  method WriteData(buf: seq<byte>, p: nat, n: nat) returns (out: seq<byte>, q: nat)
    requires p + 8 <= |buf|
    ensures |out| == |buf| && q == p + 8
    ensures out[..q] == buf[..p] + DataPart(n)
    ensures out[q..] == buf[q..]
  {
    out, q := Put(buf, p, Ascii("data"));
    out, q := Put(out, q, LE32(n * BlockAlign));
  }

  /** The header writes from the start of the buffer: RIFF, `fmt ` and `data` chunks, in that order. */
  method WriteHeader(buf: seq<byte>, sampleRate: int, n: nat) returns (out: seq<byte>, q: nat)
    requires HeaderSize <= |buf|
    ensures |out| == |buf| && q == HeaderSize
    ensures out[..q] == Header(sampleRate, n)
  {
    out, q := WriteRiff(buf, 0, n);
    out, q := WriteFmt(out, q, sampleRate);
    out, q := WriteData(out, q, n);
  }

  /**
   * The serialiser as written: a zero-filled buffer of 44 + 2n bytes, a
   * cursor that the header writes advance over the fields in the source's
   * order, then one signed 16-bit store per sample. The cursor ends exactly
   * at the end of the buffer.
   */
  method Serialise(samples: seq<real>, sampleRate: int) returns (buf: seq<byte>)
    ensures |buf| == HeaderSize + 2 * |samples|
    ensures buf == Encode(samples, sampleRate)
  {
    var n := |samples|;
    assert BlockAlign == 2;
    buf := seq(HeaderSize + n * BlockAlign, _ => 0);
    var p;
    buf, p := WriteHeader(buf, sampleRate, n);
    var i := 0;
    while i < n
      invariant 0 <= i <= n
      invariant |buf| == HeaderSize + 2 * n && p == HeaderSize + 2 * i
      invariant buf[..p] == Header(sampleRate, n) + Pcm(samples[..i])
    {
      PcmSnoc(samples[..i], samples[i]);
      assert samples[..i + 1] == samples[..i] + [samples[i]];
      buf, p := Put(buf, p, LE16(Quantise(samples[i])));
      i := i + 1;
    }
    assert p == |buf| && buf == buf[..p];
    assert samples[..i] == samples;
  }

  lemma {:induction false} PcmSnoc(xs: seq<real>, x: real)
    ensures Pcm(xs + [x]) == Pcm(xs) + LE16(Quantise(x))
    decreases |xs|
  {
    if xs == [] {
      assert xs + [x] == [x];
    } else {
      assert (xs + [x])[1..] == xs[1..] + [x];
      PcmSnoc(xs[1..], x);
    }
  }

  /** A quantised value read back as a signed 16-bit value is itself. */
  lemma SampleRoundTrip(q: int)
    requires -FullScale <= q <= FullScale
    ensures I16(LE16(q), 0) == q
  {
  }

  /** Sample `i` occupies bytes 2i and 2i+1 of the sample data. */
  lemma {:induction false} PcmAt(xs: seq<real>, i: nat)
    requires i < |xs|
    ensures Pcm(xs)[2 * i..2 * i + 2] == LE16(Quantise(xs[i]))
    decreases i
  {
    if i > 0 {
      PcmAt(xs[1..], i - 1);
      assert Pcm(xs)[2 * i..2 * i + 2] == Pcm(xs[1..])[2 * (i - 1)..2 * (i - 1) + 2];
    }
  }

  /** Sample `i` reads back, from offset 44 + 2i of the file, as its quantised value. */
  lemma SampleAt(xs: seq<real>, sampleRate: int, i: nat)
    requires i < |xs|
    ensures I16(Encode(xs, sampleRate), HeaderSize + 2 * i) == Quantise(xs[i])
  {
    var b := Encode(xs, sampleRate);
    PcmAt(xs, i);
    assert b[HeaderSize + 2 * i..HeaderSize + 2 * i + 2] == Pcm(xs)[2 * i..2 * i + 2];
    SampleRoundTrip(Quantise(xs[i]));
    assert I16(b, HeaderSize + 2 * i) == I16(LE16(Quantise(xs[i])), 0);
  }

  /**
   * The canonical layout, field by field: tags at 0, 8, 12 and 36; the RIFF
   * size 36 + 2n at 4; chunk size 16, format 1, one channel, the rate, twice
   * the rate, block align 2 and 16 bits at 16 through 34; the data size 2n
   * at 40. Sizes and rates are taken modulo 2^32 as the 32-bit stores do.
   */
  predicate Layout(h: seq<byte>, sampleRate: int, n: nat)
    requires |h| == HeaderSize
  {
    && h[0..4] == Ascii("RIFF") && U32(h, 4) == (36 + 2 * n) % Two32 && h[8..12] == Ascii("WAVE")
    && h[12..16] == Ascii("fmt ") && U32(h, 16) == 16 && U16(h, 20) == 1 && U16(h, 22) == 1
    && U32(h, 24) == sampleRate % Two32 && U32(h, 28) == (2 * sampleRate) % Two32
    && U16(h, 32) == 2 && U16(h, 34) == 16
    && h[36..40] == Ascii("data") && U32(h, 40) == (2 * n) % Two32
  }

  /** The serialised header follows the canonical layout. */
  lemma HeaderLayout(sampleRate: int, n: nat)
    ensures Layout(Header(sampleRate, n), sampleRate, n)
  {
    var r, f, d := RiffPart(n), FmtPart(sampleRate), DataPart(n);
    RiffLayout(n);
    FmtLayout(sampleRate);
    DataLayout(n);
    var h := Header(sampleRate, n);
    assert h == r + f + d;
    assert h[0..4] == r[0..4] && h[8..12] == r[8..12];
    assert U32(h, 4) == U32(r, 4);
    assert h[12..16] == f[0..4];
    assert U32(h, 16) == U32(f, 4) && U16(h, 20) == U16(f, 8) && U16(h, 22) == U16(f, 10);
    assert U32(h, 24) == U32(f, 12) && U32(h, 28) == U32(f, 16);
    assert U16(h, 32) == U16(f, 20) && U16(h, 34) == U16(f, 22);
    assert h[36..40] == d[0..4] && U32(h, 40) == U32(d, 4);
  }

  lemma RiffLayout(n: nat)
    ensures var r := RiffPart(n);
      r[0..4] == Ascii("RIFF") && U32(r, 4) == (36 + 2 * n) % Two32 && r[8..12] == Ascii("WAVE")
  {
  }

  lemma FmtLayout(sampleRate: int)
    ensures var f := FmtPart(sampleRate);
      && f[0..4] == Ascii("fmt ") && U32(f, 4) == 16 && U16(f, 8) == 1 && U16(f, 10) == 1
      && U32(f, 12) == sampleRate % Two32 && U32(f, 16) == (2 * sampleRate) % Two32
      && U16(f, 20) == 2 && U16(f, 22) == 16
  {
  }

  lemma DataLayout(n: nat)
    ensures var d := DataPart(n);
      d[0..4] == Ascii("data") && U32(d, 4) == (2 * n) % Two32
  {
  }

  /** What a reader of the file recovers: the rate and the signed 16-bit samples. */
  datatype Sound = Sound(sampleRate: int, samples: seq<int>)

  /** The 44 bytes `h` are a canonical mono 16-bit PCM header for a file of `size` bytes. */
  predicate CanonicalHeader(h: seq<byte>, size: int)
    requires |h| == HeaderSize
  {
    && h[0..4] == Ascii("RIFF") && h[8..12] == Ascii("WAVE")
    && h[12..16] == Ascii("fmt ") && h[36..40] == Ascii("data")
    && U32(h, 4) == size - 8 && U32(h, 16) == FmtChunkSize && U16(h, 20) == FormatPcm
    && U16(h, 22) == NumChannels && U32(h, 28) == BlockAlign * U32(h, 24)
    && U16(h, 32) == BlockAlign && U16(h, 34) == BitsPerSample
    && U32(h, 40) == size - HeaderSize
  }

  /** Reads a mono 16-bit PCM file in the canonical 44-byte layout, rejecting anything else. */
  function Parse(b: seq<byte>): (r: Option<Sound>)
    ensures r.Some? ==> |b| == HeaderSize + 2 * |r.value.samples|
    ensures r.Some? ==> forall i :: 0 <= i < |r.value.samples| ==> -0x8000 <= r.value.samples[i] < 0x8000
  {
    if |b| < HeaderSize || (|b| - HeaderSize) % 2 != 0 || !CanonicalHeader(b[..HeaderSize], |b|) then None
    else
      var n := (|b| - HeaderSize) / 2;
      Some(Sound(U32(b, 24), seq(n, i requires 0 <= i < n => I16(b, HeaderSize + 2 * i))))
  }

  /** The quantised sample values, in order. */
  function Quantised(xs: seq<real>): (qs: seq<int>)
    ensures |qs| == |xs|
  {
    seq(|xs|, i requires 0 <= i < |xs| => Quantise(xs[i]))
  }

  /**
   * Round trip: whenever no header field wraps around 2^32, parsing the
   * serialised file gives back the rate and exactly the quantised samples.
   */
  lemma ParseEncode(xs: seq<real>, sampleRate: int)
    requires 0 <= sampleRate && 2 * sampleRate < Two32
    requires HeaderSize + 2 * |xs| < Two32
    ensures Parse(Encode(xs, sampleRate)) == Some(Sound(sampleRate, Quantised(xs)))
  {
    var b := Encode(xs, sampleRate);
    EncodedHeader(xs, sampleRate);
    var n := (|b| - HeaderSize) / 2;
    forall i | 0 <= i < n
      ensures I16(b, HeaderSize + 2 * i) == Quantised(xs)[i]
    {
      SampleAt(xs, sampleRate, i);
    }
    assert seq(n, i requires 0 <= i < n => I16(b, HeaderSize + 2 * i)) == Quantised(xs);
  }

  lemma SmallMod(v: int)
    requires 0 <= v < Two32
    ensures v % Two32 == v
  {
  }

  /** When no field wraps, a header in the canonical layout passes the parser's checks. */
  lemma CanonicalWhenSmall(h: seq<byte>, sampleRate: int, n: nat)
    requires |h| == HeaderSize && Layout(h, sampleRate, n)
    requires 0 <= sampleRate && 2 * sampleRate < Two32
    requires HeaderSize + 2 * n < Two32
    ensures CanonicalHeader(h, HeaderSize + 2 * n)
    ensures U32(h, 24) == sampleRate
  {
    SmallMod(sampleRate);
    SmallMod(2 * sampleRate);
    SmallMod(36 + 2 * n);
    SmallMod(2 * n);
  }

  lemma EncodedHeader(xs: seq<real>, sampleRate: int)
    requires 0 <= sampleRate && 2 * sampleRate < Two32
    requires HeaderSize + 2 * |xs| < Two32
    ensures CanonicalHeader(Encode(xs, sampleRate)[..HeaderSize], |Encode(xs, sampleRate)|)
    ensures U32(Encode(xs, sampleRate), 24) == sampleRate
  {
    var b := Encode(xs, sampleRate);
    var h := Header(sampleRate, |xs|);
    HeaderLayout(sampleRate, |xs|);
    CanonicalWhenSmall(h, sampleRate, |xs|);
    assert b[..HeaderSize] == h;
    assert U32(b, 24) == U32(h, 24);
  }
}

=== FILE: wrappers.dfy ===
/** The optional-value datatype used for lookups that may find nothing. */
module Wrappers {

  datatype Option<+T> = None | Some(value: T)
}
